=== FILE: README.md ===
# Pipelined stream copy of HttpProxy, in Dafny

HttpProxy is a small HTTP proxy. In its `MultiWrite` mode, it copies each backend
response to the client with `Stream2StreamCopy.CopyStreamsAsync`, a pipelined copier:

- **Buffer pool.** A process-wide pool of read buffers, filled once by `Init`: one mebibyte
  divided into buffers of the configured size.
- **Throttle.** Each call has a semaphore of 40 permits, so one request cannot hold more
  than 40 of the shared buffers.
- **Reader loop.** It takes a permit, then a pool buffer, and fills the buffer with repeated
  reads until it is full or a read returns 0. It enqueues the filled part on a per-call FIFO
  queue. It stops after enqueuing an empty segment, the sentinel.
- **Writer loop.** It dequeues segments and issues their writes. Each write callback
  returns the buffer to the pool; a successful one also releases a permit. At the sentinel, the writer returns
  the buffer and signals that all writes are enqueued.

`Program.Main` decides, from the command line, which mode and buffer size the proxy starts
with.

The project has seven modules.

- `Options` (options.dfy): the optional value used wherever the C# code either produces a
  value or does not.
- `Chunking` (chunking.dfy): bytes, plus `Chunks(source, size)`, the sequence of segments
  the reader enqueues for a source. It holds the lemmas about its shape: full segments, at
  most one short one, then the sentinel. `Flatten(Chunks(source, size)) == source` is its
  round trip.
- `BufferPools` (buffer_pool.dfy): `Init` as the constructor of a `BufferPool` class over
  real `array<byte>` buffers. Its FIFO free list is a `seq` field. A ghost set holds the
  buffers that are lent out, so every buffer is either free or lent, and never both.
- `Streams` (streams.dfy): the input stream, as far as the reader relies on it. A read
  delivers between 1 and `count` bytes while data remains, and 0 at the end.
- `CopyModel` (copy_model.dfy): one call of `CopyStreamsAsync` as a value.
  - Each blocking wait of the source is the enabling condition of one atomic step: the
    semaphore, the pool's `Take`, the data queue's `Take` and the write callback.
  - So any interleaving of the steps is a run of the two loops.
  - `State.Inv` is the invariant: ownership of buffers, permit accounting, and the position
    of the run within `Chunks(source, size)`.
  - The lemmas prove that every step keeps `Inv` and lowers a termination measure.
  - They also prove what the source promises of a whole run.
- `StreamCopy` (transfer.dfy): the same copier on objects.
  - A `Transfer` class holds the per-call state in fields, and the buffers are the pool's
    arrays.
  - The reader's fill loop is a `while` loop over a real buffer.
  - Each step method updates the fields and the pool in place. It is proved to move the
    heap exactly as the matching `CopyModel` step moves the abstract state.
  - `CopyStreams` runs a whole copy under an arbitrary scheduler and proves that the output
    is the input.
- `Arguments` (arguments.dfy): the argument handling of `Program.Main`.

Writes are serialized: the writer dequeues the next segment only after the previous write's
callback has run. Under that schedule the output equals the source. A write may fail, which
is the `ok == false` callback. It returns its buffer but keeps its permit, and
`pendingWrites` keeps counting it, as in the source.

## Model

| member | source | states |
|---|---|---|
| `BufferPools.BufferCount` | Stream2StreamCopy.cs:20-23 | The pool size is 1048576 / size with C#'s truncating division: the largest count whose buffers fit in the mebibyte. It is zero or negative (no buffers) for a size above 1048576 or below 0, and a size of 0 divides by zero. |
| `BufferPools.DefaultPoolSize` | Stream2StreamCopy.cs:11-12 | 4096-byte buffers make a pool of 256. |
| `BufferPools.BufferPool.constructor` | Stream2StreamCopy.cs:20-30 | `Init` allocates BufferCount(size) fresh, distinct buffers, each of the given length. All of them are free and none is lent. |
| `BufferPools.BufferPool.Take` | Stream2StreamCopy.cs:91 | The oldest free buffer leaves the free list and becomes lent, and the pool invariant holds. |
| `BufferPools.BufferPool.Add` | Stream2StreamCopy.cs:71 | A lent buffer goes back to the end of the free list. Only a lent buffer can be added, so no buffer is returned twice. |
| `Streams.InputStream.Read` | Stream2StreamCopy.cs:100 | ReadAsync delivers the next n source bytes into buf[offset..offset+n]. n is 0 only when nothing is asked or nothing remains, and the rest of buf is unchanged. |
| `StreamCopy.FillBuffer` | Stream2StreamCopy.cs:96-103 | The do/while fill loop stops exactly when the buffer is full or a read returns 0. readTotal is min(buffer length, bytes remaining), and buf[..readTotal] holds the next readTotal source bytes in order. |
| `Chunking.Chunks` | Stream2StreamCopy.cs:98-112 | The segments the reader enqueues for a source always end with the empty sentinel. |
| `Chunking.ChunksShape` | Stream2StreamCopy.cs:98-112 | Every segment but the sentinel holds 1 to size bytes, and all but the last of those are full. |
| `Chunking.ChunksCount` | Stream2StreamCopy.cs:98-112 | A source of k*size+rem bytes gives k full segments, then one segment of rem bytes when rem > 0, then the sentinel. |
| `Chunking.TenThousandBytes` | Stream2StreamCopy.cs:98-112 | 10000 bytes in 4096-byte buffers give segments of 4096, 4096, 1808 and 0 bytes. |
| `Chunking.ExactMultiple` | Stream2StreamCopy.cs:98-112 | A source whose length is a multiple of the buffer size gives no short segment: length / size full segments, then the sentinel. |
| `Chunking.ChunksStep` | Stream2StreamCopy.cs:98-106 | One fill moves the next segment, min(size, remaining) bytes, from what the input holds to what has been enqueued, and the rest is Chunks of what remains. |
| `Chunking.EmptyOnlyAtEnd` | Stream2StreamCopy.cs:51-56 | The writer meets an empty segment exactly when it takes the last segment of the whole sequence. |
| `Chunking.ChunksFlatten` | Stream2StreamCopy.cs:47-61 | Writing every segment in order gives back the source exactly. |
| `CopyModel.Start` | Stream2StreamCopy.cs:34-40 | The call starts holding no buffer, with nothing lent, all 40 permits and no output; the whole source is still to be enqueued. |
| `CopyModel.State.AcquirePermit` | Stream2StreamCopy.cs:88 | The reader takes one permit and then waits for a buffer; it holds none yet and the pool is untouched. |
| `CopyModel.State.TakeBuffer` | Stream2StreamCopy.cs:91 | The reader holds the pool's oldest free buffer, now lent: the copy holds one buffer more and the pool has one free buffer fewer. |
| `CopyModel.State.Fill` | Stream2StreamCopy.cs:92-112 | Takes Min(size, remaining) bytes and enqueues them as one segment of the held buffer, losing or repeating no byte between input and queue. The reader stops exactly when that segment is empty. |
| `CopyModel.State.TakeSegment` | Stream2StreamCopy.cs:47-58 | Dequeues the oldest segment without losing or gaining a buffer. Only the sentinel ends the writer; the output is untouched. |
| `CopyModel.State.WriteCompleted` | Stream2StreamCopy.cs:61-78 | The written buffer goes back to the pool. The segment's bytes reach the output and a permit is released only when EndWrite succeeded; otherwise the write is counted as failed. |
| `CopyModel.StartInv` | Stream2StreamCopy.cs:34-40 | The call's initial state (an empty queue, 40 permits, no pending writes, nothing enqueued) satisfies the invariant over a pool with nothing lent out. |
| `CopyModel.AcquirePermitPreserves` | Stream2StreamCopy.cs:88 | Taking a permit keeps the invariant and lowers the measure. |
| `CopyModel.TakeBufferPreserves` | Stream2StreamCopy.cs:91 | Taking a pool buffer keeps the invariant and lowers the measure. |
| `CopyModel.FillPreserves` | Stream2StreamCopy.cs:92-112 | Filling and enqueuing keeps the invariant and lowers the measure. |
| `CopyModel.FillOwns` | Stream2StreamCopy.cs:106 | The filled buffer moves from the reader to the back of the queue, still lent and held once. |
| `CopyModel.FillPositions` | Stream2StreamCopy.cs:96-112 | The enqueued segment is the next one of Chunks(source), the output is untouched, and the segments still to come decrease. |
| `CopyModel.TakeSegmentPreserves` | Stream2StreamCopy.cs:47-58 | Dequeuing keeps the invariant and lowers the measure. |
| `CopyModel.TakeSegmentOwns` | Stream2StreamCopy.cs:47-58 | A dequeued buffer is either being written or, for the sentinel, back at the end of the free list. |
| `CopyModel.WriteCompletedPreserves` | Stream2StreamCopy.cs:61-78 | The write callback, successful or not, keeps the invariant and lowers the measure. |
| `CopyModel.WriteCompletedOwns` | Stream2StreamCopy.cs:68-72 | The written buffer goes back to the end of the free list whether EndWrite succeeded or threw. |
| `CopyModel.NextPreserves` | Stream2StreamCopy.cs:43-114 | Any enabled step of either loop keeps the invariant and lowers the measure, so every interleaving keeps it and is finite. Only a failing write changes the count of failed writes. |
| `CopyModel.PoolConserved` | Stream2StreamCopy.cs:54-91 | The free buffers plus the buffers the copy holds (queued, being written, being filled) are always the whole pool, across the pool's Take (line 91), the sentinel's return (line 54) and the finally block of the write callback (lines 68-72). |
| `CopyModel.ThrottleBound` | Stream2StreamCopy.cs:88 | The held buffers plus the free permits never exceed 40, so one copy holds at most 40 pool buffers. |
| `CopyModel.SentinelCompletes` | Stream2StreamCopy.cs:51-56 | Completion is signalled (once) exactly when the writer dequeues the sentinel, which is then the only queued segment after the reader has stopped. The sentinel's permit is not released. Any other dequeue issues a write and raises pendingWrites. |
| `CopyModel.Finished` | Stream2StreamCopy.cs:51-80 | Once the writer has met the sentinel, every buffer is back in the pool, failed writes included, and completion was signalled once. pendingWrites equals the number of failed writes, and 39 permits minus one per failed write are free. With no failed write, the output equals the source. |
| `CopyModel.Progress` | Stream2StreamCopy.cs:85-91 | With fewer than 40 failed writes and a non-empty pool, some step can run until the writer has met the sentinel. |
| `CopyModel.FailedWritesStall` | Stream2StreamCopy.cs:63-75 | Each failed write keeps its permit. After 40 of them, no step can run, 40 writes count as pending, and completion is never signalled. |
| `CopyModel.EmptyPoolStalls` | Stream2StreamCopy.cs:23-29 | With a pool of no buffers, the reader never gets a buffer and the writer never has anything to dequeue or complete. |
| `StreamCopy.Transfer.constructor` | Stream2StreamCopy.cs:34-40 | The fields start as the model's initial state over the pool and the input. |
| `StreamCopy.Transfer.Enabled` | Stream2StreamCopy.cs:47-91 | The test on the fields is exactly the model's enabling condition of each step: the data queue's Take (line 47), the write callback (lines 61-78), the semaphore (line 88) and the pool's Take (line 91). |
| `StreamCopy.Transfer.Ready` | Stream2StreamCopy.cs:116-117 | While no write has failed and the pool is not empty, the writer-first choice is a step that can run and is not a failing write. |
| `StreamCopy.Transfer.Run` | Stream2StreamCopy.cs:43-114 | One step of either loop moves the heap as the model's step moves the state. |
| `StreamCopy.Transfer.AcquirePermit` | Stream2StreamCopy.cs:88 | One permit fewer, and the reader awaits a buffer. |
| `StreamCopy.Transfer.TakeBuffer` | Stream2StreamCopy.cs:91-93 | The reader holds the pool's oldest free buffer, now lent. |
| `StreamCopy.Transfer.Fill` | Stream2StreamCopy.cs:92-112 | The held buffer gets the next min(size, remaining) source bytes, enqueued as one segment. A segment of 0 stops the reader. The queued buffers keep their bytes. |
| `StreamCopy.Transfer.TakeSegment` | Stream2StreamCopy.cs:47-58 | Dequeues the oldest segment, as the model's TakeSegment step. |
| `StreamCopy.Transfer.EndWriter` | Stream2StreamCopy.cs:51-56 | The sentinel's buffer goes back to the pool, the writer stops, and completion is signalled once. |
| `StreamCopy.Transfer.IssueWrite` | Stream2StreamCopy.cs:58-61 | pendingWrites goes up, and the dequeued buffer, with its bytes, is the one being written. |
| `StreamCopy.Transfer.WriteCompleted` | Stream2StreamCopy.cs:61-78 | The write callback, as the model's WriteCompleted(ok) step. |
| `StreamCopy.Transfer.WriteSucceeded` | Stream2StreamCopy.cs:65-75 | The segment's bytes are appended to the output, pendingWrites drops, the buffer returns to the pool and one permit is released. |
| `StreamCopy.Transfer.WriteFailed` | Stream2StreamCopy.cs:63-72 | The buffer returns to the pool, but pendingWrites is not decremented and no permit is released. |
| `StreamCopy.CopyStreams` | Stream2StreamCopy.cs:32-120 | A whole call over a non-empty pool that no other copy is using, under any schedule with successful writes, ends with the writer at the sentinel. The output is the whole input, the pool is whole again, pendingWrites is 0, completion was signalled once, and 39 permits are free. |
| `Arguments.IsNamedMode` | Program.cs:54-59 | The StreamMode enum names exactly the modes 0 to 2: FrameworkDefault, FrameworkBuffer and MultiWrite. |
| `Arguments.ResolveArgs` | Program.cs:9-41 | No arguments, and only then, shows usage. A parse failure only comes from a second argument that does not parse. The default mode always gets size 4096, and any other size was parsed from args[1]. |
| `Arguments.UnparsedModeIsDefault` | Program.cs:28-32 | A first argument that is not an integer leaves FrameworkDefault, and with it size 4096, whatever follows. |
| `Arguments.DefaultModeIgnoresSize` | Program.cs:35 | In FrameworkDefault mode the second argument is never parsed, and the size stays 4096. |
| `Arguments.AnyIntegerIsAMode` | Program.cs:29-31 | Every integer is taken as a mode by the unchecked cast, named by the enum or not. |
| `Arguments.UsageExampleMode` | Program.cs:22 | The usage example `HttpProxy 3 4096` starts the proxy in mode 3, which the enum does not name. |
| `Arguments.SizeFromSecondArgument` | Program.cs:37-40 | In any other mode, the size is int.Parse(args[1]), and a second argument that does not parse is a failure. |
| `Arguments.ExtraArgumentsIgnored` | Program.cs:37-40 | Arguments after the second never change the outcome. |
| `Arguments.ZeroSizeReachesInit` | Program.cs:39 | The size is not validated: `HttpProxy 1 0` starts the proxy with size 0, for which Init divides by zero. |

## Left out

- Real concurrency is not modelled: `Task.Run`, the async lambdas, the blocking `Take`
  calls and `SemaphoreSlim`. Each blocking wait is a step precondition, and any
  interleaving of the steps is allowed.
- Overlapping writes are not modelled. The source issues a new `BeginWrite` before earlier
  callbacks have run, and signals completion without waiting for `pendingWrites` to reach
  zero. In the model, writes are serialized, and the fidelity results hold under that
  schedule.
- Several copies sharing the pool are not modelled. A `Transfer` owns its pool: its
  constructor requires that nothing is lent out.
- `BufferPools.BufferPool.constructor`: `Init` is modelled for a positive size only. For a
  size of 0 (division by zero) or a negative size (no buffers), `BufferCount` states the
  outcome.
- Re-initialisation of the static pool, which the Proxy constructor repeats, is not
  modelled.
- Stream internals are left out. The input is a byte sequence read through the contract of
  `Read`, and the output stream is the `output` byte sequence. The write callback's `ok`
  says whether `EndWrite` threw.
- `StreamCopy.CopyStreams` drives only successful writes. The failing-write path is covered
  by `WriteFailed`, `NextPreserves` and `FailedWritesStall`, and `Finished` states the end
  state of any run that reaches the sentinel after failed writes: the pool is whole, and each
  failed write is still pending and holds its permit.
- Exact `int.TryParse` / `int.Parse` semantics are left out: whitespace, sign, culture and
  overflow. Both are the parameter `parseInt`.
- Console output, the `Press Enter` wait and `Shutdown` in `Main` are left out. So is all of
  Proxy.cs: the listener threads, the backend request and the mode switch. Proxy.cs is not
  part of this model.

=== FILE: arguments.dfy ===
/** The argument handling at the start of Program.Main: from the command line to the stream
    mode and buffer size the proxy is started with, or to the usage text. */
module Arguments {
  import opened Options
  import BufferPools

  newtype int32 = x: int | -0x8000_0000 <= x < 0x8000_0000

  /** StreamMode is an enum over int. A cast from int is not checked, so every int32 is a
      StreamMode; only 0, 1 and 2 have names. */
  type StreamMode = int32

  const FrameworkDefault: StreamMode := 0
  const FrameworkBuffer: StreamMode := 1
  const MultiWrite: StreamMode := 2

  const DefaultBufferSize: int32 := 4096

  /** The mode is one of the three the enum names: exactly the values 0 to 2. */
  predicate IsNamedMode(mode: StreamMode): (b: bool)
    ensures b <==> 0 <= mode < 3
  {
    mode == FrameworkDefault || mode == FrameworkBuffer || mode == MultiWrite
  }

  /** How Main goes on: it prints the usage text and returns, it constructs the Proxy with a
      mode and a buffer size, or int.Parse throws on the second argument. */
  datatype Startup =
    | ShowUsage
    | StartProxy(mode: StreamMode, bufferSize: int32)
    | ParseFailure

  /** Program.Main up to the Proxy constructor. `parseInt` is the integer parse the source
      uses through int.TryParse and int.Parse: `None` is where TryParse returns false and
      Parse throws. */
  function ResolveArgs(args: seq<string>, parseInt: string -> Option<int32>): (r: Startup)
    ensures r.ShowUsage? <==> |args| == 0
    ensures r.ParseFailure? ==> |args| >= 2 && parseInt(args[1]).None?
    ensures r.StartProxy? && r.mode == FrameworkDefault ==> r.bufferSize == DefaultBufferSize
    ensures r.StartProxy? && r.bufferSize != DefaultBufferSize ==>
      |args| >= 2 && parseInt(args[1]) == Some(r.bufferSize)
  {
    if |args| < 1 then ShowUsage
    else
      var mode := match parseInt(args[0]) case Some(m) => m case None => FrameworkDefault;
      if mode != FrameworkDefault && |args| > 1 then
        match parseInt(args[1])
        case Some(size) => StartProxy(mode, size)
        case None => ParseFailure
      else
        StartProxy(mode, DefaultBufferSize)
  }

  /** A first argument that is not an integer leaves the default mode, and with it the default
      buffer size, whatever follows. */
  lemma UnparsedModeIsDefault(args: seq<string>, parseInt: string -> Option<int32>)
    requires |args| >= 1 && parseInt(args[0]).None?
    ensures ResolveArgs(args, parseInt) == StartProxy(FrameworkDefault, DefaultBufferSize)
  {
  }

  /** In the default mode the second argument is never parsed: even one that is not a number
      gives the default buffer size. */
  lemma DefaultModeIgnoresSize(args: seq<string>, parseInt: string -> Option<int32>)
    requires |args| >= 1 && parseInt(args[0]) == Some(FrameworkDefault)
    ensures ResolveArgs(args, parseInt) == StartProxy(FrameworkDefault, DefaultBufferSize)
  {
  }

  /** Any integer is taken as a mode, named or not; alone it keeps the default size. */
  lemma AnyIntegerIsAMode(args: seq<string>, parseInt: string -> Option<int32>, m: int32)
    requires |args| == 1 && parseInt(args[0]) == Some(m)
    ensures ResolveArgs(args, parseInt) == StartProxy(m, DefaultBufferSize)
  {
  }

  /** The usage example `HttpProxy 3 4096` starts the proxy in mode 3, which the enum does
      not name. */
  lemma UsageExampleMode(parseInt: string -> Option<int32>)
    requires parseInt("3") == Some(3) && parseInt("4096") == Some(4096)
    ensures ResolveArgs(["3", "4096"], parseInt) == StartProxy(3, 4096)
    ensures !IsNamedMode(3)
  {
  }

  /** In any other mode a second argument is the buffer size, and one that does not parse
      stops Main with the exception of int.Parse. */
  lemma SizeFromSecondArgument(args: seq<string>, parseInt: string -> Option<int32>, m: int32)
    requires |args| >= 2 && parseInt(args[0]) == Some(m) && m != FrameworkDefault
    ensures ResolveArgs(args, parseInt) ==
      (if parseInt(args[1]).Some? then StartProxy(m, parseInt(args[1]).value) else ParseFailure)
  {
  }

  /** Arguments after the second are never read. */
  lemma ExtraArgumentsIgnored(args: seq<string>, parseInt: string -> Option<int32>)
    requires |args| >= 2
    ensures ResolveArgs(args, parseInt) == ResolveArgs(args[..2], parseInt)
  {
    assert args[..2][0] == args[0] && args[..2][1] == args[1];
  }

  /** The size is not checked: `HttpProxy 1 0` reaches the Proxy constructor with size 0, and
      the pool's Init then divides by zero. */
  lemma ZeroSizeReachesInit(args: seq<string>, parseInt: string -> Option<int32>)
    requires |args| == 2
    requires parseInt(args[0]) == Some(FrameworkBuffer) && parseInt(args[1]) == Some(0)
    ensures ResolveArgs(args, parseInt) == StartProxy(FrameworkBuffer, 0)
    ensures BufferPools.BufferCount(0).None?
  {
  }
}

=== FILE: buffer_pool.dfy ===
/** The process-wide pool of read buffers shared by every pipelined copy
    (`_freeReadBufferQueue` and `Init` in Stream2StreamCopy.cs). */
module BufferPools {
  import opened Options
  import opened Chunking

  /** The total byte budget of the pool: one mebibyte. */
  const PoolBudget: nat := 1048576

  /** The number of buffers `Init` allocates for a buffer size, with C#'s integer division,
      which truncates toward zero. `None` is the DivideByZeroException a size of 0 raises. */
  function BufferCount(bufferSize: int): (r: Option<int>)
    ensures r.None? <==> bufferSize == 0
    ensures bufferSize > 0 ==> r.Some? && 0 <= r.value && r.value * bufferSize <= PoolBudget
    ensures bufferSize > 0 ==> PoolBudget < (r.value + 1) * bufferSize
    ensures bufferSize < 0 || bufferSize > PoolBudget ==> r.Some? && r.value <= 0
  {
    if bufferSize == 0 then None
    else if bufferSize > 0 then Some(PoolBudget / bufferSize)
    else Some(-(PoolBudget / -bufferSize))
  }

  /** The default 4096-byte buffers make a pool of 256. */
  lemma DefaultPoolSize()
    ensures BufferCount(4096) == Some(256)
  {
  }

  /** A FIFO free list of equally sized byte arrays. The ghost set `lent` holds the buffers
      taken and not yet given back, so that free plus lent is always the whole pool. */
  class BufferPool {
    const bufferSize: Positive
    const capacity: nat
    ghost const buffers: set<array<byte>>
    var free: seq<array<byte>>
    ghost var lent: set<array<byte>>

    ghost predicate Valid()
      reads this
    {
      (forall i, j :: 0 <= i < j < |free| ==> free[i] != free[j]) &&
      (forall i :: 0 <= i < |free| ==> free[i] in buffers && free[i] !in lent) &&
      lent <= buffers &&
      (forall b :: b in buffers ==> b in lent || b in free) &&
      (forall b :: b in buffers ==> b.Length == bufferSize) &&
      |free| + |lent| == capacity
    }

    /** Stream2StreamCopy.Init: allocate budget / size fresh buffers, all free. */
    constructor Init(bufferSize: Positive)
      ensures Valid() && this.bufferSize == bufferSize
      ensures BufferCount(bufferSize) == Some(capacity)
      ensures |free| == capacity && lent == {}
      ensures forall i :: 0 <= i < |free| ==> fresh(free[i])
    {
      var count := PoolBudget / bufferSize;
      var list: seq<array<byte>> := [];
      for i := 0 to count
        invariant |list| == i
        invariant forall j :: 0 <= j < i ==> fresh(list[j]) && list[j].Length == bufferSize
        invariant forall j, k :: 0 <= j < k < i ==> list[j] != list[k]
      {
        var b := new byte[bufferSize];
        list := list + [b];
      }
      this.bufferSize := bufferSize;
      capacity := count;
      buffers := set j | 0 <= j < |list| :: list[j];
      free := list;
      lent := {};
    }

    /** `_freeReadBufferQueue.Take()`: the oldest free buffer leaves the free list. */
    method Take() returns (b: array<byte>)
      requires Valid() && free != []
      modifies this
      ensures Valid()
      ensures b == old(free[0]) && free == old(free[1..])
      ensures b !in old(lent) && lent == old(lent) + {b}
      ensures b.Length == bufferSize
    {
      b := free[0];
      free := free[1..];
      lent := lent + {b};
    }

    /** `_freeReadBufferQueue.Add(...)`: a lent buffer goes back to the end of the free list.
        Only a buffer that is out can come back, so no buffer is ever returned twice. */
    method Add(b: array<byte>)
      requires Valid() && b in lent
      modifies this
      ensures Valid()
      ensures free == old(free) + [b] && lent == old(lent) - {b}
    {
      free := free + [b];
      lent := lent - {b};
    }
  }
}

=== FILE: chunking.dfy ===
/** The data the pipelined copier moves: bytes, the segments the reader loop cuts a source
    into, and the concatenation the writer loop produces from them. */
module Chunking {

  newtype byte = x: int | 0 <= x < 256

  type Positive = n: nat | n > 0 witness 1

  function Min(a: int, b: int): (m: int)
    ensures m <= a && m <= b && (m == a || m == b)
  {
    if a <= b then a else b
  }

  /** The bytes of a list of segments, in order. Defined from the back, because the
      writer appends one segment at a time. */
  function Flatten(segments: seq<seq<byte>>): seq<byte>
  {
    if segments == [] then []
    else Flatten(segments[..|segments| - 1]) + segments[|segments| - 1]
  }

  lemma {:induction false} FlattenCons(first: seq<byte>, rest: seq<seq<byte>>)
    ensures Flatten([first] + rest) == first + Flatten(rest)
    decreases |rest|
  {
    if rest != [] {
      var all := [first] + rest;
      assert all[..|all| - 1] == [first] + rest[..|rest| - 1];
      FlattenCons(first, rest[..|rest| - 1]);
    }
  }

  /** Flatten of a prefix that grows by one segment grows by that segment. */
  lemma FlattenSnoc(segments: seq<seq<byte>>, k: nat)
    requires k < |segments|
    ensures Flatten(segments[..k + 1]) == Flatten(segments[..k]) + segments[k]
  {
    assert segments[..k + 1][..k] == segments[..k];
  }

  /** The queue contents the reader loop of CopyStreamsAsync produces for a source when every
      buffer holds `size` bytes: each fill takes as many bytes as fit, and a fill that finds the
      source exhausted yields the empty segment that ends the sequence (the sentinel). */
  function Chunks(source: seq<byte>, size: nat): (r: seq<seq<byte>>)
    requires size > 0
    ensures |r| >= 1 && r[|r| - 1] == []
    decreases |source|
  {
    if source == [] then [[]]
    else
      var n := Min(size, |source|);
      [source[..n]] + Chunks(source[n..], size)
  }

  /** One fill of the reader that finds bytes left moves the next segment from the rest of
      the source to the segments already produced. */
  lemma ChunksStep(before: seq<seq<byte>>, rest: seq<byte>, source: seq<byte>, size: nat)
    requires size > 0 && rest != []
    requires before + Chunks(rest, size) == Chunks(source, size)
    ensures var n := Min(size, |rest|);
      (before + [rest[..n]]) + Chunks(rest[n..], size) == Chunks(source, size)
  {
    var n := Min(size, |rest|);
    var later := Chunks(rest[n..], size);
    assert Chunks(rest, size) == [rest[..n]] + later;
    AppendAssoc(before, [rest[..n]], later);
  }

  lemma AppendAssoc<T>(a: seq<T>, b: seq<T>, c: seq<T>)
    ensures (a + b) + c == a + (b + c)
  {
  }

  /** In any split of the segment sequence into a produced prefix and a rest, the only empty
      produced segment is the sentinel, which is the last of all. */
  lemma EmptyOnlyAtEnd(produced: seq<seq<byte>>, rest: seq<seq<byte>>, source: seq<byte>,
                       size: nat, k: nat)
    requires size > 0 && produced + rest == Chunks(source, size) && k < |produced|
    ensures produced[k] == [] <==> rest == [] && k == |produced| - 1
  {
    ChunksShape(source, size);
    assert (produced + rest)[k] == produced[k];
  }

  /** Content fidelity of the chunking: writing every segment in order gives back the source. */
  lemma {:induction false} ChunksFlatten(source: seq<byte>, size: nat)
    requires size > 0
    ensures Flatten(Chunks(source, size)) == source
    decreases |source|
  {
    if source == [] {
      assert Flatten([[]]) == Flatten([]) + [];
    } else {
      var n := Min(size, |source|);
      var rest := Chunks(source[n..], size);
      calc {
        Flatten(Chunks(source, size));
        Flatten([source[..n]] + rest);
        { FlattenCons(source[..n], rest); }
        source[..n] + Flatten(rest);
        { ChunksFlatten(source[n..], size); }
        source[..n] + source[n..];
      }
      assert source[..n] + source[n..] == source;
    }
  }

  /** Shape of the segment sequence: every segment but the sentinel holds between 1 and
      `size` bytes, and all but the last of those are full buffers. */
  lemma {:induction false} ChunksShape(source: seq<byte>, size: nat)
    requires size > 0
    ensures forall i :: 0 <= i < |Chunks(source, size)| - 1 ==>
      0 < |Chunks(source, size)[i]| <= size
    ensures forall i :: 0 <= i < |Chunks(source, size)| - 2 ==> |Chunks(source, size)[i]| == size
    decreases |source|
  {
    if source != [] {
      var n := Min(size, |source|);
      var r, rest := Chunks(source, size), Chunks(source[n..], size);
      ChunksShape(source[n..], size);
      assert r == [source[..n]] + rest;
      forall i | 0 <= i < |r| - 1 ensures 0 < |r[i]| <= size {
        if i > 0 { assert r[i] == rest[i - 1]; }
      }
      if |source| <= size {
        assert source[n..] == [] && |r| == 2;
      } else {
        forall i | 0 <= i < |r| - 2 ensures |r[i]| == size {
          if i > 0 { assert r[i] == rest[i - 1] && |rest[i - 1]| == size; }
        }
      }
    }
  }

  /** The segments for a source of `k` full buffers and `rem` more bytes: `k` full segments,
      one segment of `rem` bytes when `rem` is not zero, then the sentinel. */
  lemma {:induction false} ChunksCount(source: seq<byte>, size: nat, k: nat, rem: nat)
    requires size > 0 && rem < size && |source| == k * size + rem
    ensures var r := Chunks(source, size);
      |r| == (if rem == 0 then k + 1 else k + 2) &&
      (forall i :: 0 <= i < k ==> |r[i]| == size) &&
      (rem > 0 ==> |r[k]| == rem)
    decreases k
  {
    var r := Chunks(source, size);
    if k == 0 {
      if rem > 0 {
        assert source[rem..] == [];
        assert Chunks(source[rem..], size) == [[]];
        assert r == [source[..rem]] + [[]];
      }
    } else {
      MulStep(k, size);
      assert |source[size..]| == (k - 1) * size + rem;
      var rest := Chunks(source[size..], size);
      assert r == [source[..size]] + rest;
      ChunksCount(source[size..], size, k - 1, rem);
      forall i | 0 <= i < k ensures |r[i]| == size {
        if i > 0 { assert r[i] == rest[i - 1]; }
      }
    }
  }

  lemma MulStep(k: nat, size: nat)
    requires k > 0
    ensures k * size == (k - 1) * size + size && k * size >= size
  {
  }

  /** The lengths of a list of segments. */
  function Lengths(segments: seq<seq<byte>>): seq<nat>
  {
    seq(|segments|, i requires 0 <= i < |segments| => |segments[i]|)
  }

  /** 10,000 bytes through 4096-byte buffers: two full segments, one of 1808 bytes, the sentinel. */
  lemma TenThousandBytes(source: seq<byte>)
    requires |source| == 10000
    ensures Lengths(Chunks(source, 4096)) == [4096, 4096, 1808, 0]
  {
    ChunksCount(source, 4096, 2, 1808);
  }

  /** A source whose length is a multiple of the buffer size yields no short segment: only
      full segments, then the sentinel. */
  lemma ExactMultiple(source: seq<byte>, size: nat)
    requires size > 0 && |source| % size == 0
    ensures var r := Chunks(source, size);
      |r| == |source| / size + 1 && forall i :: 0 <= i < |r| - 1 ==> |r[i]| == size
  {
    ChunksCount(source, size, |source| / size, 0);
  }
}

=== FILE: copy_model.dfy ===
/** One call of Stream2StreamCopy.CopyStreamsAsync as a value: its reader loop and writer
    loop, the FIFO data queue between them, the per-call throttle of 40 permits, the shared
    pool it draws buffers from, and the input it reads. Each blocking wait of CopyStreamsAsync
    (semaphore.WaitAsync, the pool's Take, the data queue's Take, the write callback) is the
    enabling condition of one atomic step, so any interleaving of the steps is a run of the
    copier. Writes are serialized: a segment is taken only after the previous write's
    callback has run. The buffers themselves are arrays; their contents live in the heap
    and are tied to this state by StreamCopy.Transfer. */
module CopyModel {
  import opened Options
  import opened Chunking

  /** The initial count of the per-call semaphore. */
  const MaxBuffersPerRequest: nat := 40

  /** An ArraySegment over a pool buffer: its first `count` bytes (the offset is always 0).
      A count of 0 is the end-of-source sentinel. */
  datatype Segment = Segment(buf: array<byte>, count: nat)

  /** Where the reader loop stands: waiting for a permit (line 88), holding a permit and
      waiting for a pool buffer (line 91), holding a buffer to fill (lines 92-106), or
      stopped after enqueuing the sentinel (line 111). */
  datatype ReaderPhase = AwaitingPermit | AwaitingBuffer | Filling(buf: array<byte>) | Stopped

  /** The five things that can happen next in a copy: one per blocking wait of CopyStreamsAsync.
      `CompleteStep(ok)` is the write callback, with `ok` false when EndWrite throws. */
  datatype Step =
    AcquirePermitStep | TakeBufferStep | FillStep | TakeSegmentStep | CompleteStep(ok: bool)

  datatype State = State(
    bufferSize: Positive,
    capacity: nat,
    /** The whole source, as it stood when the copy began. */
    source: seq<byte>,
    /** What the input stream has still to deliver. */
    remaining: seq<byte>,
    /** The pool's free list, and the buffers it has lent out. */
    free: seq<array<byte>>,
    lent: set<array<byte>>,
    dataQueue: seq<Segment>,
    permits: nat,
    pendingWrites: nat,
    output: seq<byte>,
    reader: ReaderPhase,
    /** The segment whose write has been issued and whose callback has not yet run. */
    writing: Option<Segment>,
    /** The writer loop has met the sentinel and left. */
    writerDone: bool,
    /** How many times allWritesHaveBeenEnqueued.SetResult has been called. */
    completions: nat,
    /** Every segment the reader has enqueued, as bytes, in order. */
    enqueued: seq<seq<byte>>,
    /** How many segments the writer has dequeued. */
    taken: nat,
    /** How many write callbacks have seen EndWrite throw. */
    failedWrites: nat)
  {
    /** The number of pool buffers this copy holds: queued, being written, or being filled. */
    function Held(): nat
    {
      |dataQueue| + (if writing.Some? then 1 else 0) + (if reader.Filling? then 1 else 0)
    }

    /** The pool: a free list without repeats, disjoint from the lent buffers, all of one size;
        free and lent together are the whole pool. */
    predicate PoolValid()
    {
      (forall i, j :: 0 <= i < j < |free| ==> free[i] != free[j]) &&
      (forall i :: 0 <= i < |free| ==> free[i] !in lent && free[i].Length == bufferSize) &&
      (forall b :: b in lent ==> b.Length == bufferSize) &&
      |free| + |lent| == capacity
    }

    /** Each buffer held by this copy is lent out by the pool and held once, and the pool
        has lent out exactly those. */
    predicate Owned()
    {
      (forall i :: 0 <= i < |dataQueue| ==> dataQueue[i].buf in lent) &&
      (forall i, j :: 0 <= i < j < |dataQueue| ==> dataQueue[i].buf != dataQueue[j].buf) &&
      (writing.Some? ==> writing.value.buf in lent) &&
      (writing.Some? ==>
        forall i :: 0 <= i < |dataQueue| ==> dataQueue[i].buf != writing.value.buf) &&
      (reader.Filling? ==> reader.buf in lent) &&
      (reader.Filling? ==> forall i :: 0 <= i < |dataQueue| ==> dataQueue[i].buf != reader.buf) &&
      (reader.Filling? && writing.Some? ==> writing.value.buf != reader.buf) &&
      |lent| == Held()
    }

    /** The queued segments are the enqueued ones the writer has not taken yet, and the
        segment being written is the last one it took, which is not the sentinel. */
    predicate Shape()
    {
      taken + |dataQueue| == |enqueued| &&
      (forall i :: 0 <= i < |dataQueue| ==>
         dataQueue[i].count == |enqueued[taken + i]| <= dataQueue[i].buf.Length) &&
      (writing.Some? ==>
         0 < taken && 0 < writing.value.count == |enqueued[taken - 1]| <= writing.value.buf.Length)
    }

    /** Permits are conserved: every one of the 40 is free, held by the reader, tied to a
        held buffer, or lost to a failed write or to the sentinel. pendingWrites counts the
        write in flight and every write that failed; completion has been signalled once
        exactly when the writer loop has left. */
    predicate Counters()
    {
      permits + (if reader.AwaitingBuffer? then 1 else 0) + Held()
        + failedWrites + (if writerDone then 1 else 0) == MaxBuffersPerRequest &&
      pendingWrites == failedWrites + (if writing.Some? then 1 else 0) &&
      completions == (if writerDone then 1 else 0)
    }

    /** The number of segments written so far: taken, and not still being written. */
    function Written(): nat
    {
      if writing.Some? && taken > 0 then taken - 1 else taken
    }

    /** The reader has enqueued a prefix of Chunks(source), and the rest is Chunks of what
        the input still holds, which is nothing once the reader has stopped. The writer is
        done exactly when it has taken the sentinel. As long as no write has failed, the
        output is the written segments in order. */
    predicate Positions()
    {
      enqueued + (if reader.Stopped? then [] else Chunks(remaining, bufferSize))
        == Chunks(source, bufferSize) &&
      (reader.Stopped? ==> remaining == []) &&
      taken <= |enqueued| &&
      (writerDone ==> writing.None?) &&
      (writerDone <==> reader.Stopped? && taken == |enqueued|) &&
      (failedWrites == 0 ==> output == Flatten(enqueued[..Written()]))
    }

    predicate Inv()
    {
      PoolValid() && Owned() && Shape() && Counters() && Positions()
    }

    /** The reader's semaphore.WaitAsync can complete. */
    predicate CanAcquirePermit()
    {
      reader.AwaitingPermit? && permits > 0
    }

    /** The reader's Take on the pool can complete. */
    predicate CanTakeBuffer()
    {
      reader.AwaitingBuffer? && free != []
    }

    /** The reader holds a buffer to fill; its reads wait on nothing but the input. */
    predicate CanFill()
    {
      reader.Filling?
    }

    /** The writer's dataQueue.Take can complete, and the previous write has completed. */
    predicate CanTakeSegment()
    {
      !writerDone && writing.None? && dataQueue != []
    }

    /** The pending write's completion callback can run. */
    predicate CanComplete()
    {
      writing.Some?
    }

    /** Reader, line 88: take a permit. The reader now waits for a buffer, and holds none yet. */
    function AcquirePermit(): (r: State)
      requires CanAcquirePermit()
      ensures r.permits == permits - 1 && r.reader.AwaitingBuffer?
      ensures r.Held() == Held() && r.free == free && r.lent == lent
    {
      this.(permits := permits - 1, reader := AwaitingBuffer)
    }

    /** Reader, line 91: take the oldest free buffer of the pool. The copy holds one buffer
        more and the pool has one free buffer fewer. */
    function TakeBuffer(): (r: State)
      requires CanTakeBuffer()
      ensures r.reader.Filling? && r.reader.buf == free[0] && r.reader.buf in r.lent
      ensures r.Held() == Held() + 1 && |r.free| + 1 == |free|
    {
      this.(reader := Filling(free[0]), free := free[1..], lent := lent + {free[0]})
    }

    /** Reader, lines 92-112: fill the held buffer with the next bytes of the source, as
        many as fit, and enqueue it; a segment of 0 bytes is the sentinel, after which the
        reader loop stops. No byte is lost or repeated between the input and the queue,
        and the filled buffer stays held, now in the queue. */
    function Fill(): (r: State)
      requires CanFill()
      ensures Flatten(r.enqueued) + r.remaining == Flatten(enqueued) + remaining
      ensures |r.enqueued| == |enqueued| + 1 &&
        |r.enqueued[|enqueued|]| == Min(bufferSize, |remaining|)
      ensures r.reader.Stopped? <==> remaining == []
      ensures r.Held() == Held() && r.free == free
    {
      var n := Min(bufferSize, |remaining|);
      assert remaining[..n] + remaining[n..] == remaining;
      this.(remaining := remaining[n..],
            dataQueue := dataQueue + [Segment(reader.buf, n)],
            enqueued := enqueued + [remaining[..n]],
            reader := if n == 0 then Stopped else AwaitingPermit)
    }

    /** Writer, lines 47-58 and 80: dequeue the oldest segment. The sentinel's buffer goes
        straight back to the pool, the loop stops and completion is signalled; any other
        segment's write is issued and counted in pendingWrites. No buffer is lost or
        gained, and only the sentinel ends the writer. */
    function TakeSegment(): (r: State)
      requires CanTakeSegment()
      ensures r.taken == taken + 1 && r.enqueued == enqueued && r.output == output
      ensures r.Held() + |r.free| == Held() + |free|
      ensures r.writerDone <==> dataQueue[0].count == 0
    {
      var segment := dataQueue[0];
      if segment.count == 0 then
        this.(dataQueue := dataQueue[1..], taken := taken + 1,
              free := free + [segment.buf], lent := lent - {segment.buf},
              writerDone := true, completions := completions + 1)
      else
        this.(dataQueue := dataQueue[1..], taken := taken + 1,
              writing := Some(segment), pendingWrites := pendingWrites + 1)
    }

    /** Writer, lines 61-78: the write callback. When EndWrite succeeds (`ok`) the segment's
        bytes reach the output, pendingWrites drops and the permit is released; when it
        throws, the exception skips both. The buffer goes back to the pool either way. */
    function WriteCompleted(ok: bool): (r: State)
      requires Inv() && CanComplete()
      ensures r.writing.None? && r.Held() + 1 == Held() && |r.free| == |free| + 1
      ensures r.output == output + (if ok then enqueued[taken - 1] else [])
      ensures r.permits == permits + (if ok then 1 else 0)
      ensures r.failedWrites == failedWrites + (if ok then 0 else 1)
    {
      var segment := writing.value;
      var returned := this.(writing := None, free := free + [segment.buf],
                            lent := lent - {segment.buf});
      if ok then
        returned.(output := output + enqueued[taken - 1],
                  pendingWrites := pendingWrites - 1, permits := permits + 1)
      else
        returned.(failedWrites := failedWrites + 1)
    }

    /** `step` can run now: what its wait in CopyStreamsAsync waits for has happened. */
    predicate Enabled(step: Step)
    {
      match step
      case AcquirePermitStep => CanAcquirePermit()
      case TakeBufferStep => CanTakeBuffer()
      case FillStep => CanFill()
      case TakeSegmentStep => CanTakeSegment()
      case CompleteStep(_) => CanComplete()
    }

    /** The state after `step`. */
    function Next(step: Step): State
      requires Inv() && Enabled(step)
    {
      match step
      case AcquirePermitStep => AcquirePermit()
      case TakeBufferStep => TakeBuffer()
      case FillStep => Fill()
      case TakeSegmentStep => TakeSegment()
      case CompleteStep(ok) => WriteCompleted(ok)
    }

    /** Segments the reader has still to enqueue. */
    function Pending(): nat
    {
      if reader.Stopped? then 0 else |Chunks(remaining, bufferSize)|
    }

    /** A bound on the number of steps left: every step lowers it. */
    function Measure(): nat
    {
      5 * Pending() + 2 * |dataQueue| + (if writing.Some? then 1 else 0)
        + (match reader case AwaitingPermit => 2 case AwaitingBuffer => 1 case _ => 0)
    }
  }

  /** The state CopyStreamsAsync sets up before it starts its two loops, over a pool with
      nothing lent out. The copy holds no buffer and has all its permits, and the whole
      source is still to be enqueued. */
  function Start(bufferSize: Positive, capacity: nat, source: seq<byte>, free: seq<array<byte>>)
    : (r: State)
    ensures r.Held() == 0 && r.lent == {} && r.permits == MaxBuffersPerRequest
    ensures Flatten(r.enqueued) + r.remaining == source && r.output == []
  {
    State(bufferSize, capacity, source, source, free, {}, [], MaxBuffersPerRequest, 0, [],
          AwaitingPermit, None, false, 0, [], 0, 0)
  }

  /** The invariant holds when the copy starts on a whole pool. */
  lemma StartInv(bufferSize: Positive, capacity: nat, source: seq<byte>, free: seq<array<byte>>)
    requires forall i, j :: 0 <= i < j < |free| ==> free[i] != free[j]
    requires forall i :: 0 <= i < |free| ==> free[i].Length == bufferSize
    requires |free| == capacity
    ensures Start(bufferSize, capacity, source, free).Inv()
    ensures Start(bufferSize, capacity, source, free).Measure() > 0
  {
    var s := Start(bufferSize, capacity, source, free);
    assert s.enqueued[..s.Written()] == [];
  }

  lemma AcquirePermitPreserves(s: State)
    requires s.Inv() && s.CanAcquirePermit()
    ensures s.AcquirePermit().Inv() && s.AcquirePermit().Measure() < s.Measure()
  {
  }

  lemma TakeBufferPreserves(s: State)
    requires s.Inv() && s.CanTakeBuffer()
    ensures s.TakeBuffer().Inv() && s.TakeBuffer().Measure() < s.Measure()
  {
  }

  lemma FillPreserves(s: State)
    requires s.Inv() && s.CanFill()
    ensures s.Fill().Inv() && s.Fill().Measure() < s.Measure()
  {
    FillOwns(s);
    FillPositions(s);
  }

  /** The filled buffer moves from the reader to the back of the queue: still lent, still
      held once. */
  lemma FillOwns(s: State)
    requires s.PoolValid() && s.Owned() && s.CanFill()
    ensures s.Fill().PoolValid() && s.Fill().Owned()
  {
  }

  /** The fill moves the next segment of Chunks(source) from what the input holds to what
      the reader has enqueued, and leaves what has been written alone. */
  lemma FillPositions(s: State)
    requires s.Positions() && s.Shape() && s.CanFill()
    ensures s.Fill().Positions()
    ensures s.Fill().Pending() < s.Pending()
  {
    if s.remaining != [] {
      ChunksStep(s.enqueued, s.remaining, s.source, s.bufferSize);
    }
    var t := s.Fill();
    assert t.enqueued[..t.Written()] == s.enqueued[..s.Written()];
  }

  lemma TakeSegmentPreserves(s: State)
    requires s.Inv() && s.CanTakeSegment()
    ensures s.TakeSegment().Inv() && s.TakeSegment().Measure() < s.Measure()
  {
    TakeSegmentOwns(s);
    EmptyOnlyAtEnd(s.enqueued, if s.reader.Stopped? then [] else Chunks(s.remaining, s.bufferSize),
      s.source, s.bufferSize, s.taken);
    FlattenSnoc(s.enqueued, s.taken);
  }

  lemma WriteCompletedPreserves(s: State, ok: bool)
    requires s.Inv() && s.CanComplete()
    ensures s.WriteCompleted(ok).Inv() && s.WriteCompleted(ok).Measure() < s.Measure()
  {
    WriteCompletedOwns(s, ok);
    FlattenSnoc(s.enqueued, s.taken - 1);
  }

  /** The written buffer goes back to the back of the free list whatever EndWrite did. */
  lemma WriteCompletedOwns(s: State, ok: bool)
    requires s.Inv() && s.CanComplete()
    ensures s.WriteCompleted(ok).PoolValid() && s.WriteCompleted(ok).Owned()
  {
  }

  /** A taken segment's buffer becomes the one being written, or, for the sentinel, goes
      back to the back of the free list. */
  lemma TakeSegmentOwns(s: State)
    requires s.PoolValid() && s.Owned() && s.CanTakeSegment()
    ensures s.TakeSegment().PoolValid() && s.TakeSegment().Owned()
  {
  }

  /** Every enabled step keeps the invariant and brings the copy closer to its end, so any
      interleaving of the two loops keeps it and every run is finite. */
  lemma NextPreserves(s: State, step: Step)
    requires s.Inv() && s.Enabled(step)
    ensures s.Next(step).Inv() && s.Next(step).Measure() < s.Measure()
    ensures step != CompleteStep(false) ==> s.Next(step).failedWrites == s.failedWrites
  {
    match step
    case AcquirePermitStep => AcquirePermitPreserves(s);
    case TakeBufferStep => TakeBufferPreserves(s);
    case FillStep => FillPreserves(s);
    case TakeSegmentStep => TakeSegmentPreserves(s);
    case CompleteStep(ok) => WriteCompletedPreserves(s, ok);
  }

  /** Pool conservation: the free buffers and the buffers this copy holds (queued, being
      written, being filled) make up the whole pool. */
  lemma PoolConserved(s: State)
    requires s.Inv()
    ensures |s.free| + s.Held() == s.capacity
  {
  }

  /** The throttle: a copy never holds more than 40 pool buffers, and every buffer it holds
      is covered by a permit it has taken. */
  lemma ThrottleBound(s: State)
    requires s.Inv()
    ensures s.Held() + s.permits <= MaxBuffersPerRequest
    ensures |s.lent| <= MaxBuffersPerRequest
  {
  }

  /** The writer signals completion exactly when it dequeues the sentinel, and the sentinel
      is the last segment of all: the reader has stopped and nothing else is queued. The
      sentinel's permit is never released. */
  lemma SentinelCompletes(s: State)
    requires s.Inv() && s.CanTakeSegment()
    ensures var t := s.TakeSegment();
      (t.writerDone <==> s.dataQueue[0].count == 0) &&
      (t.writerDone ==> s.reader.Stopped? && |s.dataQueue| == 1 && t.completions == 1 &&
                        t.permits == s.permits) &&
      (!t.writerDone ==> t.completions == 0 && t.pendingWrites == s.pendingWrites + 1)
  {
    var rest := if s.reader.Stopped? then [] else Chunks(s.remaining, s.bufferSize);
    EmptyOnlyAtEnd(s.enqueued, rest, s.source, s.bufferSize, s.taken);
  }

  /** Once the writer has met the sentinel, every buffer is back in the pool, whether or not
      some writes failed, since the finally block returns the buffer of a failed write too.
      Each failed write stays counted as pending and keeps its permit, completion has been
      signalled once, and the sentinel's permit is missing as well. Content fidelity: when no
      write has failed, the output is the source. */
  lemma Finished(s: State)
    requires s.Inv() && s.writerDone
    ensures s.lent == {} && |s.free| == s.capacity
    ensures s.pendingWrites == s.failedWrites && s.completions == 1
    ensures s.permits == MaxBuffersPerRequest - 1 - s.failedWrites
    ensures s.failedWrites == 0 ==> s.output == s.source
  {
    if s.failedWrites == 0 {
      assert s.enqueued == Chunks(s.source, s.bufferSize);
      assert s.enqueued[..s.Written()] == s.enqueued;
      ChunksFlatten(s.source, s.bufferSize);
    }
  }

  /** Progress: while fewer than 40 writes have failed and the pool is not empty, some step
      can run until the writer has met the sentinel; the copy cannot get stuck. */
  lemma Progress(s: State)
    requires s.Inv() && s.failedWrites < MaxBuffersPerRequest && s.capacity > 0 && !s.writerDone
    ensures s.CanComplete() || s.CanTakeSegment() || s.CanFill() || s.CanTakeBuffer() ||
            s.CanAcquirePermit()
  {
  }

  /** A failed write loses its permit for good: once 40 writes have failed, no step can
      run, and the writer never signals completion. */
  lemma FailedWritesStall(s: State)
    requires s.Inv() && s.failedWrites == MaxBuffersPerRequest
    ensures !s.writerDone && s.permits == 0 && s.pendingWrites == MaxBuffersPerRequest
    ensures forall step :: !s.Enabled(step)
  {
  }

  /** A pool of no buffers (a buffer size above one mebibyte): the reader can never get a
      buffer, and the writer has nothing to dequeue or complete. */
  lemma EmptyPoolStalls(s: State)
    requires s.Inv() && s.capacity == 0
    ensures !s.CanTakeBuffer() && !s.CanFill() && !s.CanTakeSegment() && !s.CanComplete()
  {
  }
}

=== FILE: options.dfy ===
/** The optional value used wherever the source either produces a value or does not
    (a parse that fails, a division that throws, a write slot that is empty). */
module Options {
  datatype Option<+T> = None | Some(value: T)
}

=== FILE: streams.dfy ===
/** The source stream of a copy, as far as the reader loop relies on it. */
module Streams {
  import opened Chunking

  /** A readable stream: the bytes not yet read, handed out at most `packetSize` at a time
      (how many bytes arrive per read is up to the network; callers rely only on the
      contract of Read). */
  class InputStream {
    var remaining: seq<byte>
    const packetSize: Positive

    constructor (data: seq<byte>, packetSize: Positive)
      ensures remaining == data && this.packetSize == packetSize
    {
      remaining := data;
      this.packetSize := packetSize;
    }

    /** Stream.ReadAsync(buf, offset, count): between 1 and `count` bytes while data remains,
        0 at the end; the bytes land in buf[offset..] and nothing else of buf changes. */
    method Read(buf: array<byte>, offset: nat, count: nat) returns (n: nat)
      requires offset + count <= buf.Length
      modifies this, buf
      ensures n <= count && n <= |old(remaining)|
      ensures n == 0 <==> count == 0 || old(remaining) == []
      ensures remaining == old(remaining)[n..]
      ensures buf[offset..offset + n] == old(remaining)[..n]
      ensures buf[..offset] == old(buf[..offset]) && buf[offset + n..] == old(buf[offset + n..])
    {
      n := Min(Min(count, |remaining|), packetSize);
      for j := 0 to n
        invariant remaining == old(remaining) && n <= |remaining|
        invariant buf[offset..offset + j] == remaining[..j]
        invariant buf[..offset] == old(buf[..offset]) && buf[offset + n..] == old(buf[offset + n..])
      {
        buf[offset + j] := remaining[j];
      }
      remaining := remaining[n..];
    }
  }
}

=== FILE: transfer.dfy ===
/** One call of Stream2StreamCopy.CopyStreamsAsync on objects: the copier's state lives in
    the fields of a Transfer, the buffers are the pool's arrays, and each step method does
    in place what the matching step of CopyModel.State describes. The step methods keep the
    heap side (Valid: the pool's own invariant, and the bytes in the held buffers); the
    model's invariant CopyModel.State.Inv is carried by the lemmas of CopyModel. */
module StreamCopy {
  import opened Options
  import opened Chunking
  import opened BufferPools
  import opened Streams
  import opened CopyModel

  /** The fill loop of the reader: read into `buf` until it is full or a read returns 0. */
  method FillBuffer(input: InputStream, buf: array<byte>) returns (readTotal: nat)
    requires buf.Length > 0
    modifies input, buf
    ensures readTotal == Min(buf.Length, |old(input.remaining)|)
    ensures buf[..readTotal] == old(input.remaining)[..readTotal]
    ensures input.remaining == old(input.remaining)[readTotal..]
  {
    ghost var src := input.remaining;
    readTotal := 0;
    var more := true;
    while more
      invariant readTotal <= buf.Length && readTotal <= |src|
      invariant buf[..readTotal] == src[..readTotal]
      invariant input.remaining == src[readTotal..]
      invariant more ==> readTotal < buf.Length
      invariant !more ==> readTotal == Min(buf.Length, |src|)
      decreases buf.Length - readTotal + (if more then 1 else 0)
    {
      var readImmediate := input.Read(buf, readTotal, buf.Length - readTotal);
      assert buf[..readTotal + readImmediate] ==
        buf[..readTotal] + buf[readTotal..readTotal + readImmediate];
      assert src[..readTotal + readImmediate] ==
        src[..readTotal] + src[readTotal..][..readImmediate];
      readTotal := readTotal + readImmediate;
      more := readImmediate > 0 && readTotal < buf.Length;
    }
  }

  /** The first s.count cells of s's buffer are `bytes`. */
  ghost predicate Holds(s: Segment, bytes: seq<byte>)
    reads s.buf
  {
    s.count <= s.buf.Length && s.buf[..s.count] == bytes
  }

  /** The bytes in each queued buffer are the enqueued segment it stands for. */
  ghost predicate QueueHolds(queue: seq<Segment>, enqueued: seq<seq<byte>>, taken: nat)
    reads set i | 0 <= i < |queue| :: queue[i].buf
  {
    forall i :: 0 <= i < |queue| ==> taken + i < |enqueued| && Holds(queue[i], enqueued[taken + i])
  }

  /** The buffer being written holds the segment dequeued last. */
  ghost predicate WritingHolds(writing: Option<Segment>, enqueued: seq<seq<byte>>, taken: nat)
    reads if writing.Some? then {writing.value.buf} else {}
  {
    writing.Some? ==> 0 < taken <= |enqueued| && Holds(writing.value, enqueued[taken - 1])
  }

  class Transfer {
    const pool: BufferPool
    const input: InputStream
    /** The whole source, as it stood when the copy began. */
    ghost const source: seq<byte>

    var dataQueue: seq<Segment>
    var permits: nat
    var pendingWrites: nat
    var output: seq<byte>
    var reader: ReaderPhase
    /** The segment whose write has been issued and whose callback has not yet run. */
    var writing: Option<Segment>
    var writerDone: bool
    /** How many times allWritesHaveBeenEnqueued.SetResult has been called. */
    var completions: nat

    /** Every segment the reader has enqueued, as bytes, in order. */
    ghost var enqueued: seq<seq<byte>>
    /** How many segments the writer has dequeued. */
    ghost var taken: nat
    /** How many write callbacks have seen EndWrite throw. */
    ghost var failedWrites: nat

    /** The copier, the pool and the input as one CopyModel.State. */
    ghost function Abs(): State
      reads this, pool, input
    {
      State(pool.bufferSize, pool.capacity, source, input.remaining, pool.free, pool.lent,
            dataQueue, permits, pendingWrites, output, reader, writing, writerDone,
            completions, enqueued, taken, failedWrites)
    }

    /** The pool is well formed, and each held buffer holds the bytes of its segment. */
    ghost predicate Valid()
      reads this, pool, set i | 0 <= i < |dataQueue| :: dataQueue[i].buf
      reads if writing.Some? then {writing.value.buf} else {}
    {
      pool.Valid() && QueueHolds(dataQueue, enqueued, taken) &&
      WritingHolds(writing, enqueued, taken)
    }

    /** The state CopyStreamsAsync sets up before starting its two loops (lines 34-40). */
    constructor (pool: BufferPool, input: InputStream)
      requires pool.Valid() && pool.lent == {}
      ensures Valid() && this.pool == pool && this.input == input
      ensures Abs() == Start(pool.bufferSize, pool.capacity, input.remaining, pool.free)
    {
      this.pool := pool;
      this.input := input;
      source := input.remaining;
      dataQueue := [];
      permits := MaxBuffersPerRequest;
      pendingWrites := 0;
      output := [];
      reader := AwaitingPermit;
      writing := None;
      writerDone := false;
      completions := 0;
      enqueued := [];
      taken := 0;
      failedWrites := 0;
    }

    /** Whether `step` can run now, read off the fields: the heap-side test of the model's
        enabling condition. */
    function Enabled(step: Step): (b: bool)
      reads this, pool, input
      ensures b == Abs().Enabled(step)
    {
      match step
      case AcquirePermitStep => reader.AwaitingPermit? && permits > 0
      case TakeBufferStep => reader.AwaitingBuffer? && pool.free != []
      case FillStep => reader.Filling?
      case TakeSegmentStep => !writerDone && writing.None? && dataQueue != []
      case CompleteStep(_) => writing.Some?
    }

    /** A step that can run, preferring the writer: the callback of the write in flight,
        then the next dequeue, then the reader's fill, its buffer take and its permit. */
    function Ready(): (step: Step)
      reads this, pool, input
      requires Abs().Inv() && Abs().failedWrites == 0 && pool.capacity > 0 && !writerDone
      ensures Abs().Enabled(step) && step != CompleteStep(false)
    {
      Progress(Abs());
      if writing.Some? then CompleteStep(true)
      else if dataQueue != [] then TakeSegmentStep
      else if reader.Filling? then FillStep
      else if reader.AwaitingBuffer? then TakeBufferStep
      else AcquirePermitStep
    }

    /** Run one step of either loop. */
    method Run(step: Step)
      requires Valid() && Abs().Inv() && Abs().Enabled(step)
      modifies this, pool, input, pool.buffers
      ensures Valid() && Abs() == old(Abs()).Next(step)
    {
      match step
      case AcquirePermitStep => AcquirePermit();
      case TakeBufferStep => TakeBuffer();
      case FillStep => var _ := Fill();
      case TakeSegmentStep => TakeSegment();
      case CompleteStep(ok) => WriteCompleted(ok);
    }

    /** Reader, line 88: await semaphore.WaitAsync(). */
    method AcquirePermit()
      requires Valid() && Abs().Inv() && Abs().CanAcquirePermit()
      modifies this`permits, this`reader
      ensures Valid() && Abs() == old(Abs()).AcquirePermit()
    {
      permits := permits - 1;
      reader := AwaitingBuffer;
      assert Abs() == old(Abs()).AcquirePermit();
    }

    /** Reader, line 91: take the oldest free buffer of the shared pool. */
    method TakeBuffer()
      requires Valid() && Abs().Inv() && Abs().CanTakeBuffer()
      modifies this`reader, pool
      ensures Valid() && Abs() == old(Abs()).TakeBuffer()
    {
      var buf := pool.Take();
      reader := Filling(buf);
      assert Abs() == old(Abs()).TakeBuffer();
    }

    /** Reader, lines 92-112: fill the held buffer and enqueue it as a segment of the bytes
        read; a segment of 0 bytes is the sentinel, after which the reader loop stops. */
    method Fill() returns (readTotal: nat)
      requires Valid() && Abs().Inv() && Abs().CanFill()
      modifies this`reader, this`dataQueue, this`enqueued, input, reader.buf
      ensures Valid() && Abs() == old(Abs()).Fill()
      ensures readTotal == Min(pool.bufferSize, |old(input.remaining)|)
    {
      ghost var rem := input.remaining;
      var buf := reader.buf;
      readTotal := FillBuffer(input, buf);
      dataQueue, enqueued, reader :=
        dataQueue + [Segment(buf, readTotal)], enqueued + [rem[..readTotal]],
        if readTotal == 0 then Stopped else AwaitingPermit;
      assert Abs() == old(Abs()).Fill();
      forall i | 0 <= i < |dataQueue| ensures Holds(dataQueue[i], enqueued[taken + i]) {
        if i < |old(dataQueue)| {
          assert dataQueue[i] == old(dataQueue)[i] && dataQueue[i].buf != buf;
          assert enqueued[taken + i] == old(enqueued)[taken + i];
        }
      }
    }

    /** Writer, lines 47-58 and 80: dequeue the oldest segment; the sentinel ends the
        writer loop and signals completion, any other segment's write is issued. */
    method TakeSegment()
      requires Valid() && Abs().Inv() && Abs().CanTakeSegment()
      modifies this`dataQueue, this`taken, this`writing, this`pendingWrites
      modifies this`writerDone, this`completions, pool
      ensures Valid() && Abs() == old(Abs()).TakeSegment()
    {
      if dataQueue[0].count == 0 {
        EndWriter();
      } else {
        IssueWrite();
      }
    }

    /** Lines 52-56 and 80: the sentinel's buffer goes back to the pool, the writer loop
        ends and allWritesHaveBeenEnqueued is completed. */
    method EndWriter()
      requires Valid() && Abs().Inv() && Abs().CanTakeSegment() && dataQueue[0].count == 0
      modifies this`dataQueue, this`taken, this`writerDone, this`completions, pool
      ensures Valid() && Abs() == old(Abs()).TakeSegment()
    {
      pool.Add(dataQueue[0].buf);
      dataQueue, taken, writerDone, completions := dataQueue[1..], taken + 1, true, completions + 1;
      assert Abs() == old(Abs()).TakeSegment();
    }

    /** Lines 58-62: count the pending write and issue it from the dequeued buffer. */
    method IssueWrite()
      requires Valid() && Abs().Inv() && Abs().CanTakeSegment() && dataQueue[0].count != 0
      modifies this`dataQueue, this`taken, this`writing, this`pendingWrites
      ensures Valid() && Abs() == old(Abs()).TakeSegment()
    {
      dataQueue, taken, pendingWrites, writing :=
        dataQueue[1..], taken + 1, pendingWrites + 1, Some(dataQueue[0]);
      assert pool.Valid();
      forall i | 0 <= i < |dataQueue|
        ensures taken + i < |enqueued| && Holds(dataQueue[i], enqueued[taken + i])
      {
        assert dataQueue[i] == old(dataQueue)[i + 1];
      }
      assert Abs() == old(Abs()).TakeSegment();
    }

    /** Writer, lines 61-78: the write callback. EndWrite either succeeds (`ok`) or throws;
        the finally block returns the buffer to the pool in both cases. */
    method WriteCompleted(ok: bool)
      requires Valid() && Abs().Inv() && Abs().CanComplete()
      modifies this`writing, this`output, this`pendingWrites, this`permits, this`failedWrites, pool
      ensures Valid() && Abs() == old(Abs()).WriteCompleted(ok)
    {
      if ok {
        WriteSucceeded();
      } else {
        WriteFailed();
      }
    }

    /** Lines 65-66 and 71, then 75: EndWrite returns, pendingWrites drops, the buffer goes
        back to the pool and the permit is released. */
    method WriteSucceeded()
      requires Valid() && Abs().Inv() && Abs().CanComplete()
      modifies this`writing, this`output, this`pendingWrites, this`permits, pool
      ensures Valid() && Abs() == old(Abs()).WriteCompleted(true)
    {
      var segment := writing.value;
      var bytes := segment.buf[..segment.count];
      pool.Add(segment.buf);
      output, pendingWrites, permits, writing :=
        output + bytes, pendingWrites - 1, permits + 1, None;
      assert Abs() == old(Abs()).WriteCompleted(true);
    }

    /** Lines 65 and 71: EndWrite throws; the finally block returns the buffer, and the
        exception skips the decrement and the release. */
    method WriteFailed()
      requires Valid() && Abs().Inv() && Abs().CanComplete()
      modifies this`writing, this`failedWrites, pool
      ensures Valid() && Abs() == old(Abs()).WriteCompleted(false)
    {
      pool.Add(writing.value.buf);
      failedWrites, writing := failedWrites + 1, None;
      assert Abs() == old(Abs()).WriteCompleted(false);
    }
  }

  /** One call of CopyStreamsAsync(input, output) from start to finish, with every write
      succeeding. `pick` plays the scheduler: at its k-th turn it names the step to run, and
      when that step cannot run (or is a failing write) the copy runs Ready() instead. Over
      a pool nothing else is using, the writer meets the sentinel, the output is the whole
      input, and the pool is whole again. */
  method CopyStreams(pool: BufferPool, input: InputStream, pick: nat -> Step) returns (t: Transfer)
    requires pool.Valid() && pool.lent == {} && pool.capacity > 0
    modifies pool, input, pool.buffers
    ensures t.pool == pool && t.input == input && t.Valid() && t.writerDone
    ensures t.output == old(input.remaining) && input.remaining == []
    ensures pool.lent == {} && |pool.free| == pool.capacity
    ensures t.pendingWrites == 0 && t.completions == 1
    ensures t.permits == MaxBuffersPerRequest - 1
  {
    t := new Transfer(pool, input);
    StartInv(pool.bufferSize, pool.capacity, input.remaining, pool.free);
    var k := 0;
    while !t.writerDone
      invariant fresh(t) && t.pool == pool && t.input == input
      invariant t.Valid() && t.Abs().Inv() && t.failedWrites == 0
      invariant t.source == old(input.remaining)
      decreases t.Abs().Measure()
    {
      var step := pick(k);
      if !t.Enabled(step) || step == CompleteStep(false) {
        step := t.Ready();
      }
      NextPreserves(t.Abs(), step);
      t.Run(step);
      k := k + 1;
    }
    Finished(t.Abs());
  }
}
